=== FILE: README.md ===
# deploy_it: a Dafny model of the deployment pipeline

`deploy_it` prepares a Django project for production on one Linux host. It
asks two batches of questions:

- the gunicorn batch: project name, account, virtual environment, dotted WSGI
  path, WSGI application name, optional environment file;
- the nginx batch: server address, static endpoint, static files folder.

It stops when either batch is incomplete. It overlays the gunicorn answers on
the nginx answers and derives six more keys from the working directory. It then
writes a gunicorn systemd unit and an nginx site file into `deploy_it/`. Next it
tries to register each with systemd and nginx, "restarts" nginx and queries
`ufw`. Last, it writes a README.

The model has six modules:

- `Text`: Python's `str.strip`, `str.split`, `str.join` and `str.startswith`
  on `seq<char>`. Stripping uses Python's whitespace set.
- `Paths`: the printed form of `pathlib.PurePosixPath` and its `/` operator.
  This covers collapsed separators, dropped `.` components, the kept `//`
  root, and `.` for the empty path.
- `Validators`: the nine validators and three filters as pure functions,
  plus the question table. What the host answers is held in the `Host`
  record of oracles (`Path.exists`, `Path.resolve`, `pwd.getpwnam`).
- `Config`: the two completeness gates, the merge and `parse_user_input`,
  over `map<string, string>`. The working directory is a parameter.
- `Deploy`: `main` as a function. It maps an abstract `Machine` (what the host
  does when asked), the jinja2 renderer (an uninterpreted function) and the
  two answer batches to the ordered list of effects the run issues, plus an
  outcome. The outcome is `Aborted` at a gate, or a report per service.
- `RunProperties`: lemmas over whole runs, covering order, branches and
  independence.

Notes on what the code does, which the model keeps:

- An incomplete batch ends the run with `sys.exit(0)`, which is a success
  status. The model records it as the `Aborted` outcome and has no exit code.
- `nginx -t` is judged by `stderr is None`. Its stderr is merged into
  stdout, so the verdict is "fine" whatever nginx prints.
- The nginx "restart" starts the unit and then stops it, so nginx is left
  stopped.
- The username is checked after stripping but stored as typed: that question
  has no filter.
- Undefined template placeholders are not an error, because jinja2 renders
  them blank. Rendering is an opaque parameter with no failure case.

## Model

| member | source | states |
|---|---|---|
| Text.Strip | deploy_it/main.py:33 | the stripped text sits inside the answer with only whitespace around it, neither of its ends is whitespace, and it is empty exactly when the answer is all whitespace |
| Text.StripIdempotent | deploy_it/main.py:89-97 | stripping an already stripped answer changes nothing, so the filter's second strip is harmless |
| Text.Split | deploy_it/main.py:60 | splitting on a character gives one more part than the character's occurrences, and no part contains it |
| Text.JoinSplit | deploy_it/main.py:60-62 | joining the parts of a split with the same separator gives back the original string |
| Text.JoinSplitReplace | deploy_it/main.py:60-62 | splitting on "." and joining with "/" is the same as replacing every "." by "/" |
| Text.JoinExtendLast | deploy_it/main.py:61-62 | appending ".py" to the last part before joining appends ".py" to the joined string |
| Text.SplitTrailingSeparator | deploy_it/main.py:60 | a string ending with the separator splits into a last part that is empty |
| Paths.PurePath | deploy_it/main.py:41 | the printed path is never empty, and it is absolute exactly when the given string starts with "/"; it is ".", or the kept root alone, or the kept root followed by a relative path with no empty and no "." component |
| Paths.PurePathParts | deploy_it/main.py:41 | the printed path has the same root and the same non-empty, non-"." components as the given string |
| Paths.PurePathIdempotent | deploy_it/main.py:41 | printing a printed path gives it back unchanged |
| Paths.Child | deploy_it/main.py:44 | appending a component to "." gives the component; otherwise the result extends the path with one separator unless the path already ends in one |
| Paths.ChildParts | deploy_it/main.py:44 | for a printed path and one component other than "" and ".", the `/` operator keeps the root and appends exactly that component to the path's components |
| Paths.PurePathCleanRelative | deploy_it/main.py:63 | a relative path with no empty or "." component prints as itself |
| Paths.PurePathCleanAbsolute | deploy_it/main.py:178 | "/" followed by such a path prints as itself |
| Paths.CleanRelativeShape | deploy_it/main.py:41 | such a path is non-empty and has no trailing separator |
| Validators.RequireText | deploy_it/main.py:27-30 | accepts exactly the answers of positive length, and otherwise gives the given message |
| Validators.ValidateDjangoProjectName | deploy_it/main.py:27-30 | a project name is accepted exactly when it is non-empty; otherwise "Django project name cannot be blank." |
| Validators.ValidateUsername | deploy_it/main.py:32-38 | accepted exactly when the stripped answer names an account; otherwise the fixed not-found message |
| Validators.ActivateScript | deploy_it/main.py:40-44 | the script probed is "bin/activate" when the answer prints as "."; otherwise it is the printed answer, then one separator unless that already ends in one, then "bin/activate" |
| Validators.ActivateScriptAbsolute | deploy_it/main.py:40-44 | for a clean absolute answer the probed script is the answer followed by "/bin/activate" |
| Validators.ActivateBelow | deploy_it/main.py:44 | the two `/` steps "bin" and "activate" below a printed path give "bin/activate" below ".", and the path plus one separator (none after a trailing one) plus "bin/activate" otherwise |
| Validators.ActivateScriptOf | deploy_it/main.py:40-44 | an answer that prints as a directory other than "." with no trailing separator probes that directory followed by "/bin/activate" |
| Validators.ActivateScriptRelative | deploy_it/main.py:40-44 | a relative answer such as `venv`, without empty or "." components, probes the answer followed by "/bin/activate" |
| Validators.ValidateVenvPath | deploy_it/main.py:40-50 | accepted exactly when the activation script exists; the rejection names that script path |
| Validators.VenvPathRule | deploy_it/main.py:117-123 | the virtual environment answer is kept exactly when its activation script exists, and is stored as the resolved path |
| Validators.WsgiFile | deploy_it/main.py:56-62 | the file of a dotted module path is the path with every "." replaced by "/" plus ".py" |
| Validators.WsgiFileExample | deploy_it/main.py:56-66 | "config.wsgi" names "config/wsgi.py" |
| Validators.ValidateWsgiPath | deploy_it/main.py:56-66 | accepted exactly when the dots-to-slashes file plus ".py" exists; the rejection names that file |
| Validators.WsgiPathRule | deploy_it/main.py:124-129 | the WSGI path question accepts by the same rule and stores the dotted answer unchanged |
| Validators.ValidateWsgiAppName | deploy_it/main.py:68-72 | accepted exactly when non-empty; otherwise "WSGI application cannot be blank." |
| Validators.ValidateProjectEnvFile | deploy_it/main.py:74-87 | an all-whitespace answer is accepted; any other is accepted exactly when its stripped path exists; the rejection names the stripped path |
| Validators.FilterProjectEnvFile | deploy_it/main.py:89-97 | a blank answer is stored as the empty string, any other as the resolved stripped path |
| Validators.ProjectEnvFileRule | deploy_it/main.py:136-142 | blank answers are kept as ""; other answers are kept exactly when the path exists; a non-empty stored value is the resolved path of a non-blank answer |
| Validators.ProjectEnvFileIgnoresPadding | deploy_it/main.py:74-97 | surrounding whitespace changes neither the verdict nor the stored value |
| Validators.ValidateServerIpAddress | deploy_it/main.py:164-169 | accepted exactly when non-empty; otherwise "IP address cannot be blank" |
| Validators.ValidateStaticEndpoint | deploy_it/main.py:171-175 | accepted exactly when non-empty; otherwise "static endpoint cannot be blank" |
| Validators.ValidateStaticfileFolder | deploy_it/main.py:177-181 | accepted exactly when the folder exists; the rejection names the printed path |
| Validators.StaticfileFolderRule | deploy_it/main.py:203-209 | the static folder answer is kept exactly when the folder exists, and is stored resolved |
| Validators.RequiredTextAnswers | deploy_it/main.py:27-72 | the four required-text questions keep exactly the non-empty answers and store them verbatim; whitespace alone counts as an answer |
| Validators.UsernameStoredUnstripped | deploy_it/main.py:111-116 | an accepted username is stored as typed, and only its stripped form is known to name an account |
| Validators.Validate | deploy_it/main.py:104-143 | the validator attached to each question: the four text questions accept exactly the non-empty answers, the username exactly a stripped account name, the virtual environment exactly an existing activation script, the WSGI path exactly an existing dots-to-slashes file, the environment file exactly a blank answer or an existing stripped path, the static folder exactly an existing folder |
| Validators.Filter | deploy_it/main.py:190-210 | the stored value of each question: the resolved printed path for the virtual environment and the static folder, "" or the resolved stripped path for the environment file, and the raw answer for every question without a filter |
| Validators.NamesDistinct | deploy_it/main.py:104-143 | no two of the nine questions share a key, so no answer overwrites another within or across the batches |
| Config.GatesAreRequiredKeys | deploy_it/main.py:411-432 | each gate passes exactly when its required key set is contained in the batch |
| Config.GatesCoverQuestions | deploy_it/main.py:411-417 | the first gate requires every gunicorn question except the environment file; the second requires every nginx question |
| Config.Merge | deploy_it/main.py:434 | the merged keys are the union of both batches, and the gunicorn value wins on a shared key |
| Config.MergeKeepsGates | deploy_it/main.py:434 | both gates still hold after merging |
| Config.ParseUserInput | deploy_it/main.py:343-366 | exactly the six derived keys are added with their concatenations from the working directory, virtual environment and project name; every other key keeps its value |
| Config.ParseUserInputIdempotent | deploy_it/main.py:343-366 | deriving twice in the same directory gives the same configuration |
| Config.ParseUserInputDependsOnTwoKeys | deploy_it/main.py:343-366 | the derived values depend only on the virtual environment path and the project name |
| Config.PipelineConfig | deploy_it/main.py:434-435 | after both gates the configuration holds both batches and the derived keys; the socket and gunicorn paths come from the gunicorn batch |
| Config.BlogDerivation | deploy_it/main.py:351-356 | project "blog" in "/opt/venvs/blog" gets the socket "<cwd>/blog.sock" and the binary "/opt/venvs/blog/bin/gunicorn" |
| Deploy.CommunicatedStderr | deploy_it/main.py:332-335 | `communicate` hands back stderr text only when stderr is piped, never when it is merged into stdout |
| Deploy.Initialize | deploy_it/main.py:19-21 | the output directory is created exactly when it does not exist yet |
| Deploy.RegisterGunicorn | deploy_it/main.py:245-287 | skipped with no requests beyond the directory check exactly when the systemd directory is absent; failed exactly on a refused copy, and then the copy is the only request; after a copy that went through, the requests are the copy, the unit start and then the probe of the derived socket path, and the socket check passes exactly when that path exists |
| Deploy.RegisterNginx | deploy_it/main.py:292-340 | skipped with no requests beyond the directory check exactly when sites-available is absent; failed exactly on a refused copy, and then the copy is the only request; after a copy that went through, the requests are the copy, the link into sites-enabled, the probe of the link and `nginx -t`, in that order; the link check passes exactly when the link exists; the link and syntax verdicts are reported exactly when the site was registered, and the syntax verdict is never a problem |
| Deploy.RestartNginx | deploy_it/main.py:370-382 | a restart is reported failed exactly when a D-Bus call is rejected; a rejected load makes no request, a rejected start makes only the start request, and otherwise the start and then the stop are requested |
| Deploy.CheckFirewall | deploy_it/main.py:386-398 | the firewall is reported inactive exactly when the output starts with "Status: inactive"; the error branch is never taken |
| Deploy.SiteArtifact | deploy_it/main.py:222 | the local nginx artifact lies in `deploy_it/`, and the project name is exactly what follows that prefix |
| Deploy.Artifacts | deploy_it/main.py:149-160 | two writes: first `deploy_it/gunicorn.service` with the gunicorn template rendered from the configuration, then the project's site file with the nginx template rendered from the same configuration |
| Deploy.SystemSteps | deploy_it/main.py:441-446 | after the artifacts, only host requests are made, and the firewall query is the last of them |
| Deploy.SystemStepsOrder | deploy_it/main.py:441-446 | the host requests are the gunicorn registration's, then the nginx registration's, then the restart's, and the firewall query last |
| Deploy.Deployment | deploy_it/main.py:437-449 | a run past the gates writes the gunicorn unit and then the nginx site first, makes only host requests in between, and writes the README last; its report is the two registrations' reports, the restart's failure flag and the firewall verdict |
| Deploy.Run | deploy_it/main.py:401-453 | the run aborts exactly when a gate fails, and an aborted run has done nothing but create the output directory; a completed run ends with the README; the directory is created exactly when absent |
| RunProperties.LayeredTrace | deploy_it/main.py:437-449 | in a trace of local writes, then host requests, then one write, no write except the last follows a host request |
| RunProperties.ArtifactsWritten | deploy_it/main.py:437-438 | right after the directory step the run writes `deploy_it/gunicorn.service` and `deploy_it/<project>`, rendered from the derived configuration |
| RunProperties.ArtifactsBeforeRegistration | deploy_it/main.py:437-449 | after any host request the only file written is the README |
| RunProperties.SocketIsNotSiteLink | deploy_it/main.py:277-282 | the socket path probed is never the nginx link path probed |
| RunProperties.GunicornBranches | deploy_it/main.py:245-287 | within a deployment, the unit copy, start and socket probe are requested exactly under the systemd branch conditions, and the socket check passes exactly when the socket exists after a successful copy |
| RunProperties.NginxBranches | deploy_it/main.py:292-340 | within a deployment, the site copy is requested exactly when sites-available exists, and the link, its probe and the syntax check exactly when the copy also went through; the link check passes exactly when the link exists after a successful copy |
| RunProperties.RunIsDeployment | deploy_it/main.py:434-449 | a run past both gates is the directory step followed by the deployment of the merged, derived configuration |
| RunProperties.RunRegistrations | deploy_it/main.py:434-443 | over a whole run, the socket probed is `<cwd>/<project>.sock`, and each service's follow-up requests (unit start and socket probe; link, link probe and syntax check) happen exactly when its own copy went through, whatever happened to the other service |
| RunProperties.RunReports | deploy_it/main.py:437-449 | over a whole run, the socket, link and syntax verdicts are reported exactly when their service was registered; the restart fails exactly on a D-Bus fault; the firewall is reported inactive exactly when `ufw` prints "Status: inactive" first, and no firewall error is shown |
| RunProperties.RegistrationsIndependent | deploy_it/main.py:441-443 | changing what systemd does leaves the nginx registration unchanged, and the other way round |
| RunProperties.SyntaxVerdictIgnoresOutput | deploy_it/main.py:332-340 | whatever `nginx -t` prints, the syntax verdict passes whenever the check runs |
| RunProperties.RestartStopRequestedLast | deploy_it/main.py:370-382 | the restart is reported failed exactly on a D-Bus fault, and when the stop request is made it follows the start and is the last unit request of the run |
| RunProperties.ArtifactNameCollisions | deploy_it/main.py:222 | the nginx artifact path string equals the unit artifact path string or the README path string exactly when the project is called "gunicorn.service" or "README.txt" |

## Left out

- Prompting (PyInquirer's re-asking after a rejection), the Figlet banner,
  the Halo spinner messages and `print(__file__)`: these are interactive
  input/output. The model gives each validator and filter, and the
  `Answered` relation between a raw answer and its stored value.
- `Path.exists`, `Path.resolve` and `pwd.getpwnam` are oracles in `Host` and
  `Machine`. Nothing is claimed about resolution, not even idempotence. A
  `ValueError` from `getpwnam` on an embedded NUL is not modelled.
- Validators.FilterVenvPath and Validators.FilterStaticfileFolder have no
  contract of their own. They only apply the resolve oracle to the printed
  path. What they store is stated by Validators.Filter, VenvPathRule and
  StaticfileFolderRule.
- Validators.FilterProjectEnvFile: the source returns a `Path` object for a
  non-blank answer. The model stores its string form.
- jinja2 `Template.render` and the reading of the template files next to
  the script: `render` is a parameter, so artifact contents are stated only
  as `render(template, config)`.
- Exceptions that end the run are not modelled; the model has no crash
  outcome and assumes none happens. These are:
  - `os.mkdir("./deploy_it")` in `initialization`. It raises
    `PermissionError` when the working directory is not writable. It raises
    `FileExistsError` when `deploy_it` is a regular file, because the check
    before it asks for `deploy_it/` and a file does not satisfy that;
  - the gunicorn unit's load and start through pystemd, which are outside any
    `try`;
  - exceptions other than `PermissionError` from `shutil.copyfile`;
  - in `restart_nginx`, exceptions other than `DBusInvalidArgsError`
    (modelled as `DbusFault`);
  - the artifact and README writes. `open("deploy_it/" + project, "w")`
    raises for project names the validator accepts, such as `a/b` when
    `deploy_it/a` does not exist (FileNotFoundError) or `.` and `..`
    (IsADirectoryError);
  - the three `subprocess.Popen` calls (`ln`, `nginx -t`, `ufw`), which raise
    when `sudo` is missing.
- Deploy.Deployment and Deploy.Run always complete past the gates. For a
  project name whose site file cannot be opened, the real run stops after
  the unit artifact, with no registration and no README.
- RunProperties.ArtifactNameCollisions compares path strings only. File
  identity through "." or ".." components is not modelled, so accepted names
  such as `./gunicorn.service` or `../deploy_it/README.txt`, which open the
  same files, are not covered.
- The existence checks of `deploy_it/`, the systemd directory and
  sites-available are not listed as requests in the trace. Their answers are
  `Machine` fields that choose the branch. Only the socket and link checks
  appear, as `ProbePath`.
- `time.sleep` pauses: they have no effect on the logic.
- The `ln -s` child process is not awaited. Whether the link exists when it
  is probed is part of the `pathExists` oracle, and the race is not modelled.
- The `ufw` output is decoded as UTF-8. A decoding failure is not modelled,
  and the output is taken as text.
- Deploy.Run: the exit status of `sys.exit(0)` is not modelled; an early
  stop is the `Aborted` outcome.
- deploy_it.py (an older prompt-and-write script) and setup.py (packaging
  metadata) are not part of this model.

=== FILE: config.dfy ===
/**
 The configuration mapping of a run: the two completeness gates in `main`,
 the overlay of the gunicorn answers onto the nginx answers, and
 `parse_user_input`, which adds the six derived keys.
 */
module Config {
  import opened Validators

  type Config = map<string, string>

  /** Keys the first batch must hold for the run to go on; the optional
      environment file is not among them. */
  const GunicornRequired: set<string> :=
    {"wsgi_app_name", "wsgi_path", "venv_path", "username", "django_project_name"}

  const NginxRequired: set<string> :=
    {"staticfile_folder", "static_endpoint", "server_ip_address"}

  /** The keys `parse_user_input` writes. */
  const DerivedKeys: set<string> :=
    {"working_directory", "venv_bin_directory", "gunicorn_path", "gunicorn_socket_file_path",
     "gunicorn_error_log_file_path", "gunicorn_access_log_file_path"}

  /** The first gate, key by key as the run tests it. */
  predicate GunicornGate(g: Config) {
    && "wsgi_app_name" in g
    && "wsgi_path" in g
    && "venv_path" in g
    && "username" in g
    && "django_project_name" in g
  }

  /** The second gate. */
  predicate NginxGate(n: Config) {
    && "staticfile_folder" in n
    && "static_endpoint" in n
    && "server_ip_address" in n
  }

  /** The gates pass exactly when the required key sets are present. */
  lemma GatesAreRequiredKeys(g: Config, n: Config)
    ensures GunicornGate(g) <==> GunicornRequired <= g.Keys
    ensures NginxGate(n) <==> NginxRequired <= n.Keys
  {
  }

  /** The first gate asks for every gunicorn question but the environment
      file; the second asks for every nginx question. */
  lemma GatesCoverQuestions()
    ensures GunicornRequired == (set q | q in GunicornQuestions :: Name(q)) - {Name(ProjectEnvFile)}
    ensures NginxRequired == set q | q in NginxQuestions :: Name(q)
  {
    assert Name(ProjectEnvFile) == "project_env_file";
    var gs := set q | q in GunicornQuestions :: Name(q);
    assert Name(GunicornQuestions[0]) in gs;
    assert Name(GunicornQuestions[1]) in gs;
    assert Name(GunicornQuestions[2]) in gs;
    assert Name(GunicornQuestions[3]) in gs;
    assert Name(GunicornQuestions[4]) in gs;
    var ns := set q | q in NginxQuestions :: Name(q);
    assert Name(NginxQuestions[0]) in ns;
    assert Name(NginxQuestions[1]) in ns;
    assert Name(NginxQuestions[2]) in ns;
  }

  /** `nconfig.update(gconfig)`: every key of either batch, and the gunicorn
      value wherever both batches hold a key. */
  function Merge(nconfig: Config, gconfig: Config): (merged: Config)
    ensures merged.Keys == nconfig.Keys + gconfig.Keys
    ensures forall k :: k in gconfig ==> merged[k] == gconfig[k]
    ensures forall k :: k in nconfig && k !in gconfig ==> merged[k] == nconfig[k]
  {
    nconfig + gconfig
  }

  /** Merging keeps what the gates saw: both gates still hold of the result. */
  lemma MergeKeepsGates(n: Config, g: Config)
    requires GunicornGate(g) && NginxGate(n)
    ensures GunicornGate(Merge(n, g)) && NginxGate(Merge(n, g))
  {
  }

  /** `parse_user_input`: the working directory `cwd` (the run's `os.getcwd()`)
      and the virtual environment path and project name fix the six derived
      keys; every other key keeps its value. */
  function ParseUserInput(cwd: string, config: Config): (r: Config)
    requires "venv_path" in config && "django_project_name" in config
    ensures r.Keys == config.Keys + DerivedKeys
    ensures forall k :: k in config && k !in DerivedKeys ==> r[k] == config[k]
    ensures r["working_directory"] == cwd
    ensures r["venv_bin_directory"] == config["venv_path"] + "/bin/"
    ensures r["gunicorn_path"] == r["venv_bin_directory"] + "gunicorn"
    ensures r["gunicorn_socket_file_path"] == cwd + "/" + config["django_project_name"] + ".sock"
    ensures r["gunicorn_error_log_file_path"] == cwd + "/deploy_it/gunicorn-error.log"
    ensures r["gunicorn_access_log_file_path"] == cwd + "/deploy_it/gunicorn-access.log"
  {
    var venv := config["venv_path"];
    BinThenGunicorn(venv);
    var c1 := config["working_directory" := cwd];
    var c2 := c1["venv_bin_directory" := venv + "/bin/"];
    var c3 := c2["gunicorn_path" := venv + "/bin/gunicorn"];
    var c4 := c3["gunicorn_socket_file_path" := c3["working_directory"] + "/" + c3["django_project_name"] + ".sock"];
    var c5 := c4["gunicorn_error_log_file_path" := c4["working_directory"] + "/deploy_it/gunicorn-error.log"];
    c5["gunicorn_access_log_file_path" := c5["working_directory"] + "/deploy_it/gunicorn-access.log"]
  }

  lemma BinThenGunicorn(venv: string)
    ensures (venv + "/bin/") + "gunicorn" == venv + "/bin/gunicorn"
  {
    assert "/bin/" + "gunicorn" == "/bin/gunicorn";
  }

  /** Deriving twice in the same directory changes nothing: none of the
      derived keys feeds the derivation. */
  lemma ParseUserInputIdempotent(cwd: string, config: Config)
    requires "venv_path" in config && "django_project_name" in config
    ensures ParseUserInput(cwd, ParseUserInput(cwd, config)) == ParseUserInput(cwd, config)
  {
    var once := ParseUserInput(cwd, config);
    var twice := ParseUserInput(cwd, once);
    assert "venv_path" !in DerivedKeys && "django_project_name" !in DerivedKeys;
    assert twice.Keys == once.Keys;
    forall k | k in once
      ensures twice[k] == once[k]
    {
      if k !in DerivedKeys {
        assert twice[k] == once[k];
      }
    }
  }

  /** Two configurations that agree on the virtual environment path and the
      project name get the same derived values. */
  lemma ParseUserInputDependsOnTwoKeys(cwd: string, a: Config, b: Config)
    requires "venv_path" in a && "django_project_name" in a
    requires "venv_path" in b && "django_project_name" in b
    requires a["venv_path"] == b["venv_path"] && a["django_project_name"] == b["django_project_name"]
    ensures forall k :: k in DerivedKeys ==> ParseUserInput(cwd, a)[k] == ParseUserInput(cwd, b)[k]
  {
  }

  /** After both gates, merging and deriving is defined, and the project name
      and virtual environment path come from the gunicorn batch. */
  lemma PipelineConfig(cwd: string, n: Config, g: Config)
    requires GunicornGate(g) && NginxGate(n)
    ensures var c := ParseUserInput(cwd, Merge(n, g));
            && c.Keys == n.Keys + g.Keys + DerivedKeys
            && c["django_project_name"] == g["django_project_name"]
            && c["gunicorn_socket_file_path"] == cwd + "/" + g["django_project_name"] + ".sock"
            && c["gunicorn_path"] == g["venv_path"] + "/bin/gunicorn"
  {
  }

  /** The representative deployment: project "blog" with its virtual
      environment in "/opt/venvs/blog" gets the socket "<cwd>/blog.sock" and
      the gunicorn binary "/opt/venvs/blog/bin/gunicorn". */
  lemma BlogDerivation(cwd: string, g: Config, n: Config)
    requires GunicornGate(g) && NginxGate(n)
    requires g["django_project_name"] == "blog" && g["venv_path"] == "/opt/venvs/blog"
    ensures var c := ParseUserInput(cwd, Merge(n, g));
            && c["gunicorn_socket_file_path"] == cwd + "/blog.sock"
            && c["gunicorn_path"] == "/opt/venvs/blog/bin/gunicorn"
  {
    PipelineConfig(cwd, n, g);
    BlogSpelling(cwd);
  }

  lemma BlogSpelling(cwd: string)
    ensures cwd + "/" + "blog" + ".sock" == cwd + "/blog.sock"
    ensures "/opt/venvs/blog" + "/bin/gunicorn" == "/opt/venvs/blog/bin/gunicorn"
  {
    assert "/" + "blog" + ".sock" == "/blog.sock";
  }
}

=== FILE: deploy.dfy ===
/**
 The run as `main` sequences it: create the output directory, gate both
 answer batches, merge and derive, write both artifacts, register the
 gunicorn unit and the nginx site, restart nginx, query the firewall and
 write the README. The machine is an abstract record of what the host does
 when asked; the run produces the effects it issues, in order, and a report.
 */
module Deploy {
  import opened Text
  import opened Config

  /** A request the run makes of the host. A copy is listed when it is
      attempted, whether or not the host lets it through. The existence
      checks of the output, systemd and sites-available directories are
      not listed: their answers are the `Machine` fields that decide the
      branch, so a trace shows only what happens after them. */
  datatype Effect =
    | MakeDir(dir: string)
    | WriteFile(path: string, content: string)
    | CopyFile(src: string, dst: string)
    | StartUnit(unit: string)
    | StopUnit(unit: string)
    | ProbePath(probed: string)
    | Symlink(target: string, linkDir: string)
    | SyntaxCheck
    | FirewallStatus

  /** The two jinja2 templates shipped beside the script. */
  datatype Template = GunicornTemplate | NginxTemplate

  /** Where a D-Bus call of the nginx restart is rejected with
      `DBusInvalidArgsError`, if anywhere. */
  datatype DbusFault = NoFault | AtLoad | AtStart | AtStop

  /** How a child process's stderr is wired: piped back, or merged into
      stdout (`stderr=subprocess.STDOUT`). */
  datatype StderrMode = PipeStderr | MergeIntoStdout

  /** What the host does when asked. `pathExists` answers the checks made after
      the service start and after the link; the other fields fix the
      branches of the two registrations and the nginx restart. */
  datatype Machine = Machine(
    outputDirExists: bool,
    systemdDirExists: bool,
    unitCopyDenied: bool,
    sitesAvailableExists: bool,
    siteCopyDenied: bool,
    pathExists: string -> bool,
    nginxFault: DbusFault,
    nginxTestOutput: string,
    ufwOutput: string)

  /** Per-service result: copied and followed up, target directory absent,
      or copy refused with `PermissionError`. */
  datatype Registration = Registered | Skipped | Failed

  /** A request to the host beyond the local output directory. */
  predicate IsSystemStep(e: Effect) {
    !e.MakeDir? && !e.WriteFile?
  }

  /** A follow-up check that was not reached, or its verdict. */
  datatype Check = NotRun | Passed | Problem

  datatype GunicornReport = GunicornReport(registration: Registration, socket: Check)

  datatype NginxReport = NginxReport(registration: Registration, link: Check, syntax: Check)

  datatype FirewallReport = FirewallReport(inactive: bool, errorShown: bool)

  datatype Outcome =
    | Aborted
    | Completed(gunicorn: GunicornReport, nginx: NginxReport, restartFailed: bool, firewall: FirewallReport)

  datatype RunResult = RunResult(effects: seq<Effect>, outcome: Outcome)

  const OutputDir := "./deploy_it"
  const UnitArtifact := "deploy_it/gunicorn.service"
  const UnitTarget := "/etc/systemd/system/gunicorn.service"
  const UnitName := "gunicorn.service"
  const ReadmeFile := "deploy_it/README.txt"
  const ReadmeText :=
    "This folder contains the server configuration file for deploying the django project.\n"
    + "And will also contain the log file for the project when it's deployed."
  const NginxUnit := "nginx"
  const SitesEnabled := "/etc/nginx/sites-enabled"

  /** The local nginx artifact is named after the project: the project
      name is what follows the output directory prefix. */
  function SiteArtifact(project: string): (path: string)
    ensures StartsWith(path, "deploy_it/") && path[|"deploy_it/"|..] == project
  {
    "deploy_it/" + project
  }

  function SiteAvailable(project: string): string {
    "/etc/nginx/sites-available/" + project
  }

  function SiteEnabled(project: string): string {
    "/etc/nginx/sites-enabled/" + project
  }

  datatype Option = None | Some(text: string)

  /** The stderr `communicate()` hands back: the text only when it is piped. */
  function CommunicatedStderr(mode: StderrMode, emitted: string): (err: Option)
    ensures err.Some? <==> mode == PipeStderr
  {
    if mode == PipeStderr then Some(emitted) else None
  }

  /** `initialization`: the output directory is created only when absent. */
  function Initialize(m: Machine): (effects: seq<Effect>)
    ensures forall e :: e in effects ==> e == MakeDir(OutputDir)
    ensures effects == [] <==> m.outputDirExists
  {
    if m.outputDirExists then [] else [MakeDir(OutputDir)]
  }

  /** `register_gunicorn_service`: copy the unit when the systemd directory
      exists; only after a copy that went through, start the unit and look
      for the socket file. */
  function RegisterGunicorn(m: Machine, config: Config): (r: (seq<Effect>, GunicornReport))
    requires "working_directory" in config && "django_project_name" in config
    ensures r.1.registration == Skipped <==> !m.systemdDirExists
    ensures r.1.registration == Failed <==> m.systemdDirExists && m.unitCopyDenied
    ensures (r.1.registration == Skipped) == (r.0 == [])
    ensures r.1.registration != Skipped ==> r.0[0] == CopyFile(UnitArtifact, UnitTarget)
    ensures r.1.registration == Failed ==> r.0 == [CopyFile(UnitArtifact, UnitTarget)]
    ensures r.1.registration == Registered ==>
              r.0 == [ CopyFile(UnitArtifact, UnitTarget), StartUnit(UnitName),
                       ProbePath(config["working_directory"] + "/" + config["django_project_name"] + ".sock") ]
    ensures StartUnit(UnitName) in r.0 <==> r.1.registration == Registered
    ensures forall p :: ProbePath(p) in r.0 ==>
              p == config["working_directory"] + "/" + config["django_project_name"] + ".sock"
    ensures r.1.registration == Registered <==> r.1.socket != NotRun
    ensures r.1.socket == Passed <==>
              r.1.registration == Registered && m.pathExists(config["working_directory"] + "/" + config["django_project_name"] + ".sock")
    ensures forall e :: e in r.0 ==> e.CopyFile? || e.StartUnit? || e.ProbePath?
  {
    if !m.systemdDirExists then ([], GunicornReport(Skipped, NotRun))
    else if m.unitCopyDenied then ([CopyFile(UnitArtifact, UnitTarget)], GunicornReport(Failed, NotRun))
    else
      var socket := config["working_directory"] + "/" + config["django_project_name"] + ".sock";
      ( [CopyFile(UnitArtifact, UnitTarget), StartUnit(UnitName), ProbePath(socket)],
        GunicornReport(Registered, if m.pathExists(socket) then Passed else Problem) )
  }

  /** `register_nginx_config_file`: copy the site when sites-available exists;
      only after a copy that went through, link it into sites-enabled, look
      for the link and run `nginx -t`. The verdict of `nginx -t` reads the
      stderr of a process whose stderr is merged into stdout. */
  function RegisterNginx(m: Machine, config: Config): (r: (seq<Effect>, NginxReport))
    requires "django_project_name" in config
    ensures r.1.registration == Skipped <==> !m.sitesAvailableExists
    ensures r.1.registration == Failed <==> m.sitesAvailableExists && m.siteCopyDenied
    ensures (r.1.registration == Skipped) == (r.0 == [])
    ensures r.1.registration != Skipped ==>
              r.0[0] == CopyFile(SiteArtifact(config["django_project_name"]), SiteAvailable(config["django_project_name"]))
    ensures r.1.registration == Failed ==>
              r.0 == [CopyFile(SiteArtifact(config["django_project_name"]), SiteAvailable(config["django_project_name"]))]
    ensures r.1.registration == Registered ==>
              r.0 == [ CopyFile(SiteArtifact(config["django_project_name"]), SiteAvailable(config["django_project_name"])),
                       Symlink(SiteAvailable(config["django_project_name"]), SitesEnabled),
                       ProbePath(SiteEnabled(config["django_project_name"])),
                       SyntaxCheck ]
    ensures r.1.registration == Registered <==> SyntaxCheck in r.0
    ensures r.1.registration == Registered <==> ProbePath(SiteEnabled(config["django_project_name"])) in r.0
    ensures r.1.registration == Registered <==>
              Symlink(SiteAvailable(config["django_project_name"]), SitesEnabled) in r.0
    ensures r.1.link == Passed <==> r.1.registration == Registered && m.pathExists(SiteEnabled(config["django_project_name"]))
    ensures r.1.syntax != Problem
    ensures r.1.registration == Registered <==> r.1.link != NotRun
    ensures r.1.registration == Registered <==> r.1.syntax != NotRun
    ensures forall e :: e in r.0 ==> e.CopyFile? || e.Symlink? || e.ProbePath? || e.SyntaxCheck?
  {
    var project := config["django_project_name"];
    if !m.sitesAvailableExists then ([], NginxReport(Skipped, NotRun, NotRun))
    else if m.siteCopyDenied then ([CopyFile(SiteArtifact(project), SiteAvailable(project))], NginxReport(Failed, NotRun, NotRun))
    else
      var linked := m.pathExists(SiteEnabled(project));
      var stderr := CommunicatedStderr(MergeIntoStdout, m.nginxTestOutput);
      ( [ CopyFile(SiteArtifact(project), SiteAvailable(project)),
          Symlink(SiteAvailable(project), SitesEnabled),
          ProbePath(SiteEnabled(project)),
          SyntaxCheck ],
        NginxReport(Registered, if linked then Passed else Problem, if stderr.None? then Passed else Problem) )
  }

  /** `restart_nginx`: load the unit, start it, wait, stop it. A rejected
      call ends the attempt and is reported; the calls made are listed. */
  function RestartNginx(fault: DbusFault): (r: (seq<Effect>, bool))
    ensures r.1 <==> fault != NoFault
    ensures StopUnit(NginxUnit) in r.0 ==> r.0[|r.0| - 1] == StopUnit(NginxUnit)
    ensures forall e :: e in r.0 ==> e == StartUnit(NginxUnit) || e == StopUnit(NginxUnit)
    ensures fault == NoFault ==> r.0 == [StartUnit(NginxUnit), StopUnit(NginxUnit)]
    ensures fault == AtLoad ==> r.0 == []
    ensures fault == AtStart ==> r.0 == [StartUnit(NginxUnit)]
    ensures fault == AtStop ==> r.0 == [StartUnit(NginxUnit), StopUnit(NginxUnit)]
  {
    match fault
    case NoFault => ([StartUnit(NginxUnit), StopUnit(NginxUnit)], false)
    case AtLoad => ([], true)
    case AtStart => ([StartUnit(NginxUnit)], true)
    case AtStop => ([StartUnit(NginxUnit), StopUnit(NginxUnit)], true)
  }

  /** `setup_firewall`: inactive when stdout starts with "Status: inactive";
      the error branch tests the stderr of a process whose stderr is merged. */
  function CheckFirewall(m: Machine): (report: FirewallReport)
    ensures report.inactive <==> StartsWith(m.ufwOutput, "Status: inactive")
    ensures !report.errorShown
  {
    var stderr := CommunicatedStderr(MergeIntoStdout, m.ufwOutput);
    var errorShown := match stderr
      case Some(text) => text != []
      case None => false;
    FirewallReport(StartsWith(m.ufwOutput, "Status: inactive"), errorShown)
  }

  /** The two artifacts, rendered from the derived configuration: the
      gunicorn unit under a fixed name first, then the nginx site under the
      project name. */
  function Artifacts(render: (Template, Config) -> string, config: Config): (writes: seq<Effect>)
    requires "django_project_name" in config
    ensures |writes| == 2 && forall e :: e in writes ==> e.WriteFile?
    ensures writes[0].path == UnitArtifact && writes[0].content == render(GunicornTemplate, config)
    ensures writes[1].path == SiteArtifact(config["django_project_name"])
    ensures writes[1].content == render(NginxTemplate, config)
  {
    [ WriteFile(UnitArtifact, render(GunicornTemplate, config)),
      WriteFile(SiteArtifact(config["django_project_name"]), render(NginxTemplate, config)) ]
  }

  /** The requests made of the host after the artifacts are written: both
      registrations, each attempted whatever the other's result, the nginx
      restart and the firewall query. */
  function SystemSteps(m: Machine, config: Config): (steps: seq<Effect>)
    requires "working_directory" in config && "django_project_name" in config
    ensures forall e :: e in steps ==> IsSystemStep(e)
    ensures steps != [] && steps[|steps| - 1] == FirewallStatus
  {
    var unit := RegisterGunicorn(m, config).0;
    var site := RegisterNginx(m, config).0;
    var restart := RestartNginx(m.nginxFault).0;
    assert forall e :: e in unit ==> IsSystemStep(e);
    assert forall e :: e in site ==> IsSystemStep(e);
    assert forall e :: e in restart ==> IsSystemStep(e);
    unit + site + restart + [FirewallStatus]
  }

  /** The host requests come in the order `main` makes them: the gunicorn
      registration, then the nginx registration, then the restart, then the
      firewall query. */
  lemma SystemStepsOrder(m: Machine, config: Config)
    requires "working_directory" in config && "django_project_name" in config
    ensures var steps := SystemSteps(m, config);
            var u, s, x := RegisterGunicorn(m, config).0, RegisterNginx(m, config).0, RestartNginx(m.nginxFault).0;
            && |steps| == |u| + |s| + |x| + 1
            && steps[..|u|] == u
            && steps[|u|..|u| + |s|] == s
            && steps[|u| + |s|..|steps| - 1] == x
            && steps[|steps| - 1] == FirewallStatus
  {
    var u, s, x := RegisterGunicorn(m, config).0, RegisterNginx(m, config).0, RestartNginx(m.nginxFault).0;
    Segments(u, s, x, FirewallStatus);
  }

  /** The three segments of a concatenation, and its last element. */
  lemma Segments(u: seq<Effect>, s: seq<Effect>, x: seq<Effect>, last: Effect)
    ensures var t := u + s + x + [last];
            && |t| == |u| + |s| + |x| + 1
            && t[..|u|] == u
            && t[|u|..|u| + |s|] == s
            && t[|u| + |s|..|t| - 1] == x
            && t[|t| - 1] == last
  {
    var t := u + s + x + [last];
    assert t == u + (s + (x + [last]));
    assert t[|u|..] == s + (x + [last]);
    assert t[|u|..][..|s|] == s;
    assert t[|u| + |s|..] == x + [last];
  }

  /** A trace of two writes, then host requests, then one last write. */
  lemma Layers(writes: seq<Effect>, system: seq<Effect>, last: Effect)
    requires |writes| == 2 && forall e :: e in writes ==> e.WriteFile?
    requires forall e :: e in system ==> IsSystemStep(e)
    requires last.WriteFile?
    ensures var t := writes + system + [last];
            && |t| >= 3 && t[0] == writes[0] && t[1] == writes[1] && t[|t| - 1] == last
            && (forall k :: 2 <= k < |t| - 1 ==> IsSystemStep(t[k]))
            && forall e :: e in t ==> !e.MakeDir?
  {
    var t := writes + system + [last];
    forall k | 2 <= k < |t| - 1
      ensures IsSystemStep(t[k])
    {
      assert t[k] == system[k - 2];
      assert system[k - 2] in system;
    }
  }

  /** Everything `main` does once both gates have passed and the merged
      configuration has been derived; the README is written last. */
  function Deployment(m: Machine, render: (Template, Config) -> string, config: Config): (r: RunResult)
    requires "working_directory" in config && "django_project_name" in config
    ensures r.outcome == Completed(RegisterGunicorn(m, config).1, RegisterNginx(m, config).1,
                                   RestartNginx(m.nginxFault).1, CheckFirewall(m))
    ensures forall e :: e in r.effects ==> !e.MakeDir?
    ensures |r.effects| >= 3 && r.effects[|r.effects| - 1] == WriteFile(ReadmeFile, ReadmeText)
    ensures r.effects[0] == WriteFile(UnitArtifact, render(GunicornTemplate, config))
    ensures r.effects[1] == WriteFile(SiteArtifact(config["django_project_name"]), render(NginxTemplate, config))
    ensures forall k :: 2 <= k < |r.effects| - 1 ==> IsSystemStep(r.effects[k])
  {
    var writes := Artifacts(render, config);
    var system := SystemSteps(m, config);
    Layers(writes, system, WriteFile(ReadmeFile, ReadmeText));
    RunResult(
      writes + system + [WriteFile(ReadmeFile, ReadmeText)],
      Completed(RegisterGunicorn(m, config).1, RegisterNginx(m, config).1,
                RestartNginx(m.nginxFault).1, CheckFirewall(m)))
  }

  /** `main` over one machine, the jinja2 renderer `render`, the working
      directory `cwd` and the two answer batches `g` (gunicorn) and `n` (nginx). */
  function Run(m: Machine, render: (Template, Config) -> string, cwd: string, g: Config, n: Config): (r: RunResult)
    ensures r.outcome.Aborted? <==> !(GunicornGate(g) && NginxGate(n))
    ensures r.outcome.Aborted? ==> forall e :: e in r.effects ==> e == MakeDir(OutputDir)
    ensures r.outcome.Completed? ==> r.effects != [] && r.effects[|r.effects| - 1] == WriteFile(ReadmeFile, ReadmeText)
    ensures (MakeDir(OutputDir) in r.effects) <==> !m.outputDirExists
  {
    var init := Initialize(m);
    if !GunicornGate(g) || !NginxGate(n) then RunResult(init, Aborted)
    else
      var config := ParseUserInput(cwd, Merge(n, g));
      var d := Deployment(m, render, config);
      assert MakeDir(OutputDir) !in d.effects;
      RunResult(init + d.effects, d.outcome)
  }
}

=== FILE: paths.dfy ===
/**
 The lexical part of `pathlib.PurePosixPath`: the string a `Path(...)` object
 prints as, and the `/` operator that appends one component. Nothing here
 touches a file system; existence and symlink resolution are oracles of the
 Validators module.
 */
module Paths {
  import opened Text

  /** Drops the empty and "." components, which `pathlib` discards. */
  function KeepParts(parts: seq<string>): (kept: seq<string>)
    ensures |kept| <= |parts|
    ensures forall i :: 0 <= i < |kept| ==> kept[i] != [] && kept[i] != "."
    ensures forall p :: p in kept ==> p in parts
  {
    if parts == [] then []
    else if parts[0] == [] || parts[0] == "." then KeepParts(parts[1..])
    else [parts[0]] + KeepParts(parts[1..])
  }

  /** The root `pathlib` keeps: POSIX preserves exactly two leading slashes
      and collapses three or more into one. */
  function Root(s: string): (root: string)
    ensures root == [] || root == "/" || root == "//"
    ensures StartsWith(s, root)
    ensures StartsWith(s, "/") <==> root != []
  {
    if StartsWith(s, "//") && !StartsWith(s, "///") then "//"
    else if StartsWith(s, "/") then "/"
    else []
  }

  /** `str(PurePosixPath(s))`: repeated separators collapsed, "." components
      dropped, a trailing separator removed, and "." for an empty path. */
  function PurePath(s: string): (r: string)
    ensures r != []
    ensures StartsWith(s, "/") <==> StartsWith(r, "/")
    ensures r == "." || (StartsWith(r, Root(s)) && (r == Root(s) || CleanRelative(r[|Root(s)|..])))
  {
    var root := Root(s);
    var kept := KeepParts(Split(s, '/'));
    var body := Join(kept, '/');
    assert forall i :: 0 <= i < |kept| ==> '/' !in kept[i] by {
      forall i | 0 <= i < |kept|
        ensures '/' !in kept[i]
      {
        assert kept[i] in Split(s, '/');
      }
    }
    JoinHead(kept, '/');
    assert !StartsWith(".", "/") by { assert "."[..1][0] == '.'; }
    KeptClean(kept);
    assert (root + body)[|root|..] == body;
    if root == [] && body == [] then "." else root + body
  }

  /** Kept parts re-joined form a clean relative path, if there are any. */
  lemma KeptClean(kept: seq<string>)
    requires forall i :: 0 <= i < |kept| ==> kept[i] != [] && kept[i] != "." && '/' !in kept[i]
    ensures kept != [] ==> CleanRelative(Join(kept, '/'))
    ensures KeepParts(Split(Join(kept, '/'), '/')) == kept
  {
    if kept == [] {
      assert KeepParts(Split([], '/')) == KeepParts([[]]);
    } else {
      SplitJoin(kept, '/');
      KeepCleanParts(kept);
    }
  }

  /** A root followed by text that does not start with a separator keeps
      that root. */
  lemma RootThen(root: string, t: string)
    requires root == [] || root == "/" || root == "//"
    requires t == [] || t[0] != '/'
    ensures Root(root + t) == root
  {
    if root == "//" && t != [] {
      assert (root + t)[..3][2] == t[0];
    } else if root == [] && t != [] {
      assert t[..1][0] == t[0];
    }
  }

  /** Dropping the empty and "." components distributes over concatenation. */
  lemma {:induction false} KeepPartsAppend(x: seq<string>, y: seq<string>)
    ensures KeepParts(x + y) == KeepParts(x) + KeepParts(y)
  {
    if x == [] {
      assert x + y == y;
    } else {
      var head := if x[0] == [] || x[0] == "." then [] else [x[0]];
      calc {
        KeepParts(x + y);
        { assert (x + y)[0] == x[0] && (x + y)[1..] == x[1..] + y; }
        head + KeepParts(x[1..] + y);
        { KeepPartsAppend(x[1..], y); }
        head + (KeepParts(x[1..]) + KeepParts(y));
        (head + KeepParts(x[1..])) + KeepParts(y);
        KeepParts(x) + KeepParts(y);
      }
    }
  }

  /** The root contributes only empty components. */
  lemma KeepAfterRoot(root: string, t: string)
    requires root == [] || root == "/" || root == "//"
    ensures KeepParts(Split(root + t, '/')) == KeepParts(Split(t, '/'))
  {
    if root == "/" {
      SplitAcross([], '/', t);
      assert [] + ['/'] + t == root + t;
      KeepPartsAppend([[]], Split(t, '/'));
    } else if root == "//" {
      SplitAcross([], '/', "/" + t);
      SplitAcross([], '/', t);
      assert [] + ['/'] + ("/" + t) == root + t;
      assert [] + ['/'] + t == "/" + t;
      KeepPartsAppend([[]], Split("/" + t, '/'));
      KeepPartsAppend([[]], Split(t, '/'));
    } else {
      assert root + t == t;
    }
  }

  /** The printed form has the same root and the same components as the
      input, which is what makes two `PurePosixPath` values equal. */
  lemma PurePathParts(s: string)
    ensures Root(PurePath(s)) == Root(s)
    ensures KeepParts(Split(PurePath(s), '/')) == KeepParts(Split(s, '/'))
  {
    var root := Root(s);
    var kept := KeepParts(Split(s, '/'));
    var body := Join(kept, '/');
    assert forall i :: 0 <= i < |kept| ==> '/' !in kept[i] by {
      forall i | 0 <= i < |kept|
        ensures '/' !in kept[i]
      {
        assert kept[i] in Split(s, '/');
      }
    }
    KeptClean(kept);
    JoinHead(kept, '/');
    if root == [] && body == [] {
      SplitWithoutSeparator(".", '/');
      assert "."[0] == '.';
      assert KeepParts(["."]) == [];
    } else {
      RootThen(root, body);
      KeepAfterRoot(root, body);
    }
  }

  /** Printing a printed path changes nothing. */
  lemma PurePathIdempotent(s: string)
    ensures PurePath(PurePath(s)) == PurePath(s)
  {
    PurePathParts(s);
  }

  /** `Path(p) / name` appends one component to the parts of `p` and keeps
      its root, for a printed `p` and a single proper component `name`. */
  lemma ChildParts(p: string, name: string)
    requires p == PurePath(p)
    requires name != [] && name != "." && '/' !in name
    ensures Root(Child(p, name)) == Root(p)
    ensures KeepParts(Split(Child(p, name), '/')) == KeepParts(Split(p, '/')) + [name]
  {
    SplitWithoutSeparator(name, '/');
    assert name[0] in name;
    assert KeepParts([name]) == [name];
    if p == "." {
      ChildBelowDot(name);
    } else if p == Root(p) {
      ChildBelowRoot(p, name);
    } else {
      ChildBelowPath(p, name);
    }
  }

  lemma ChildBelowDot(name: string)
    requires name != [] && name[0] != '/' && Split(name, '/') == [name] && KeepParts([name]) == [name]
    ensures Root(Child(".", name)) == Root(".")
    ensures KeepParts(Split(Child(".", name), '/')) == KeepParts(Split(".", '/')) + [name]
  {
    SplitWithoutSeparator(".", '/');
    assert KeepParts(["."]) == [];
    RootThen([], name);
    RootThen([], ".");
    assert [] + name == name;
    assert [] + "." == ".";
  }

  lemma ChildBelowRoot(p: string, name: string)
    requires p == "/" || p == "//"
    requires name != [] && name[0] != '/' && Split(name, '/') == [name] && KeepParts([name]) == [name]
    ensures Root(Child(p, name)) == Root(p)
    ensures KeepParts(Split(Child(p, name), '/')) == KeepParts(Split(p, '/')) + [name]
  {
    RootThen(p, name);
    RootThen(p, []);
    KeepAfterRoot(p, name);
    KeepAfterRoot(p, []);
    assert p + [] == p;
    assert KeepParts(Split([], '/')) == KeepParts([[]]);
  }

  lemma ChildBelowPath(p: string, name: string)
    requires p == PurePath(p) && p != "." && p != Root(p)
    requires name != [] && name[0] != '/' && Split(name, '/') == [name] && KeepParts([name]) == [name]
    ensures Root(Child(p, name)) == Root(p)
    ensures KeepParts(Split(Child(p, name), '/')) == KeepParts(Split(p, '/')) + [name]
  {
    var root := Root(p);
    var body := p[|root|..];
    CleanRelativeShape(body);
    assert p == root + body;
    assert p[|p| - 1] == body[|body| - 1];
    var tail := body + "/" + name;
    assert Child(p, name) == root + tail;
    RootThen(root, tail);
    KeepAfterRoot(root, tail);
    KeepAfterRoot(root, body);
    SplitAcross(body, '/', name);
    KeepPartsAppend(Split(body, '/'), [name]);
  }


  /** A join of non-empty, separator-free parts does not start with the separator. */
  lemma JoinHead(parts: seq<string>, sep: char)
    requires forall i :: 0 <= i < |parts| ==> parts[i] != [] && sep !in parts[i]
    ensures Join(parts, sep) == [] || Join(parts, sep)[0] != sep
  {
    if |parts| > 1 {
      assert Join(parts, sep)[0] == parts[0][0];
    }
  }

  /** `Path(p) / name` for a path `p` already in printed form and a single
      component `name`. */
  function Child(p: string, name: string): (r: string)
    requires p != []
    ensures p == "." ==> r == name
    ensures p != "." ==> StartsWith(r, p) && r[|p|..] == (if p[|p| - 1] == '/' then name else "/" + name)
  {
    if p == "." then name
    else if p[|p| - 1] == '/' then p + name
    else p + "/" + name
  }

  /** A relative path with no empty and no "." component. */
  predicate CleanRelative(s: string) {
    forall p :: p in Split(s, '/') ==> p != [] && p != "."
  }

  /** A clean relative path is not empty, is not ".", and does not end
      with a separator. */
  lemma CleanRelativeShape(s: string)
    requires CleanRelative(s)
    ensures s != [] && s != "." && s[0] != '/' && s[|s| - 1] != '/'
  {
    var parts := Split(s, '/');
    assert parts[0] in parts;
    assert parts[|parts| - 1] in parts;
    SplitWithoutSeparator(".", '/');
    if s != [] && s[|s| - 1] == '/' {
      SplitTrailingSeparator(s, '/');
    }
  }

  lemma {:induction false} KeepCleanParts(parts: seq<string>)
    requires forall p :: p in parts ==> p != [] && p != "."
    ensures KeepParts(parts) == parts
  {
    if parts != [] {
      assert parts[0] in parts;
      assert forall p :: p in parts[1..] ==> p in parts;
      KeepCleanParts(parts[1..]);
    }
  }

  /** A clean relative path prints as itself. */
  lemma PurePathCleanRelative(s: string)
    requires CleanRelative(s)
    ensures PurePath(s) == s
  {
    var parts := Split(s, '/');
    assert parts[0] in parts;
    KeepCleanParts(parts);
    JoinSplit(s, '/');
  }

  /** "/" followed by a clean relative path prints as itself. */
  lemma PurePathCleanAbsolute(t: string)
    requires CleanRelative(t)
    ensures PurePath("/" + t) == "/" + t
  {
    var s := "/" + t;
    var parts := Split(t, '/');
    assert s[1..] == t;
    assert Split(s, '/') == [[]] + parts;
    assert parts[0] in parts;
    KeepCleanParts(parts);
    JoinSplit(t, '/');
    assert KeepParts(Split(s, '/')) == KeepParts(parts);
  }
}

=== FILE: properties.dfy ===
/**
 What a run promises, stated over the effects it issues and the report it
 returns: the early abort, the order of writes and registrations, the
 branches of each registration and their independence.
 */
module RunProperties {
  import opened Text
  import opened Config
  import opened Deploy

  /** Local writes, then system steps, then one last write: no write but
      the last one follows a system step. */
  lemma LayeredTrace(init: seq<Effect>, d: seq<Effect>)
    requires forall e :: e in init ==> e.MakeDir?
    requires |d| >= 3 && d[0].WriteFile? && d[1].WriteFile?
    requires forall k :: 2 <= k < |d| - 1 ==> IsSystemStep(d[k])
    ensures var t := init + d;
            forall i, j :: 0 <= i < j < |t| && IsSystemStep(t[i]) && t[j].WriteFile? ==> t[j] == d[|d| - 1]
  {
    var t := init + d;
    assert forall k :: 0 <= k < |init| ==> t[k] == init[k] && t[k] in init;
    assert forall k :: |init| <= k < |t| ==> t[k] == d[k - |init|];
  }

  /** Both artifacts are written, under their fixed names and rendered from
      the derived configuration, right after the output directory step. */
  lemma ArtifactsWritten(m: Machine, render: (Template, Config) -> string, cwd: string, g: Config, n: Config)
    requires GunicornGate(g) && NginxGate(n)
    ensures var r := Run(m, render, cwd, g, n);
            var c := ParseUserInput(cwd, Merge(n, g));
            && |r.effects| > |Initialize(m)| + 1
            && r.effects[|Initialize(m)|] == WriteFile(UnitArtifact, render(GunicornTemplate, c))
            && r.effects[|Initialize(m)| + 1] == WriteFile(SiteArtifact(g["django_project_name"]), render(NginxTemplate, c))
  {
    var c := ParseUserInput(cwd, Merge(n, g));
    PipelineConfig(cwd, n, g);
    RunIsDeployment(m, render, cwd, g, n);
  }

  /** No artifact is written after a registration step has been made: the
      README is the only file written after one. */
  lemma ArtifactsBeforeRegistration(m: Machine, render: (Template, Config) -> string, cwd: string, g: Config, n: Config)
    requires GunicornGate(g) && NginxGate(n)
    ensures var r := Run(m, render, cwd, g, n);
            forall i, j :: 0 <= i < j < |r.effects| && IsSystemStep(r.effects[i]) && r.effects[j].WriteFile? ==>
              r.effects[j] == WriteFile(ReadmeFile, ReadmeText)
  {
    var c := ParseUserInput(cwd, Merge(n, g));
    RunIsDeployment(m, render, cwd, g, n);
    LayeredTrace(Initialize(m), Deployment(m, render, c).effects);
  }

  /** The socket the run probes and the nginx link it probes never coincide. */
  lemma SocketIsNotSiteLink(cwd: string, project: string)
    ensures cwd + "/" + project + ".sock" != SiteEnabled(project)
  {
    var socket := cwd + "/" + project + ".sock";
    if |socket| == |SiteEnabled(project)| {
      assert socket[|cwd|] == '/';
      assert SiteEnabled(project)[19] == 'a';
    }
  }

  /** The systemd target of the unit copy is never the nginx target. */
  lemma UnitTargetIsNotSite(project: string)
    ensures UnitTarget != SiteAvailable(project)
  {
    assert UnitTarget[5] == 's' && SiteAvailable(project)[5] == 'n';
  }

  /** Only the system steps of a deployment are requests beyond the output
      directory. */
  lemma SystemStepInDeployment(m: Machine, render: (Template, Config) -> string, config: Config, e: Effect)
    requires "working_directory" in config && "django_project_name" in config
    requires IsSystemStep(e)
    ensures e in Deployment(m, render, config).effects <==> e in SystemSteps(m, config)
  {
    assert Deployment(m, render, config).effects
        == Artifacts(render, config) + SystemSteps(m, config) + [WriteFile(ReadmeFile, ReadmeText)];
  }

  /** Where the gunicorn requests sit among the system steps. */
  lemma GunicornSteps(m: Machine, config: Config)
    requires "working_directory" in config && "django_project_name" in config
    ensures var steps := SystemSteps(m, config);
            var socket := config["working_directory"] + "/" + config["django_project_name"] + ".sock";
            && (CopyFile(UnitArtifact, UnitTarget) in steps <==> CopyFile(UnitArtifact, UnitTarget) in RegisterGunicorn(m, config).0)
            && (StartUnit(UnitName) in steps <==> StartUnit(UnitName) in RegisterGunicorn(m, config).0)
            && (ProbePath(socket) in steps <==> ProbePath(socket) in RegisterGunicorn(m, config).0)
  {
    var project := config["django_project_name"];
    var socket := config["working_directory"] + "/" + project + ".sock";
    var siteSteps := RegisterNginx(m, config).0;
    var restartSteps := RestartNginx(m.nginxFault).0;
    assert SystemSteps(m, config) == RegisterGunicorn(m, config).0 + siteSteps + restartSteps + [FirewallStatus];
    SocketIsNotSiteLink(config["working_directory"], project);
    UnitTargetIsNotSite(project);
    assert CopyFile(UnitArtifact, UnitTarget) !in siteSteps;
    assert ProbePath(socket) !in siteSteps;
    assert StartUnit(UnitName) !in restartSteps;
  }

  /** Where the nginx requests sit among the system steps. */
  lemma NginxSteps(m: Machine, config: Config)
    requires "working_directory" in config && "django_project_name" in config
    ensures var steps := SystemSteps(m, config);
            var project := config["django_project_name"];
            var copy := CopyFile(SiteArtifact(project), SiteAvailable(project));
            var link := Symlink(SiteAvailable(project), SitesEnabled);
            && (copy in steps <==> copy in RegisterNginx(m, config).0)
            && (link in steps <==> link in RegisterNginx(m, config).0)
            && (ProbePath(SiteEnabled(project)) in steps <==> ProbePath(SiteEnabled(project)) in RegisterNginx(m, config).0)
            && (SyntaxCheck in steps <==> SyntaxCheck in RegisterNginx(m, config).0)
  {
    var project := config["django_project_name"];
    var unitSteps := RegisterGunicorn(m, config).0;
    var restartSteps := RestartNginx(m.nginxFault).0;
    assert SystemSteps(m, config) == unitSteps + RegisterNginx(m, config).0 + restartSteps + [FirewallStatus];
    UnitTargetIsNotSite(project);
    assert CopyFile(SiteArtifact(project), SiteAvailable(project)) !in unitSteps;
    SocketIsNotSiteLink(config["working_directory"], project);
    assert ProbePath(SiteEnabled(project)) !in unitSteps;
  }

  /** The gunicorn branch: the unit copy is attempted only when the systemd
      directory exists, and the start and the socket probe happen only after
      a copy that went through; the probe looks at the derived socket path. */
  lemma GunicornBranches(m: Machine, render: (Template, Config) -> string, config: Config)
    requires "working_directory" in config && "django_project_name" in config
    ensures var r := Deployment(m, render, config);
            var socket := config["working_directory"] + "/" + config["django_project_name"] + ".sock";
            && (r.outcome.gunicorn.registration == Skipped <==> !m.systemdDirExists)
            && (r.outcome.gunicorn.registration == Failed <==> m.systemdDirExists && m.unitCopyDenied)
            && (CopyFile(UnitArtifact, UnitTarget) in r.effects <==> m.systemdDirExists)
            && (StartUnit(UnitName) in r.effects <==> m.systemdDirExists && !m.unitCopyDenied)
            && (ProbePath(socket) in r.effects <==> m.systemdDirExists && !m.unitCopyDenied)
            && (r.outcome.gunicorn.socket == Passed <==> m.systemdDirExists && !m.unitCopyDenied && m.pathExists(socket))
  {
    var socket := config["working_directory"] + "/" + config["django_project_name"] + ".sock";
    GunicornSteps(m, config);
    SystemStepInDeployment(m, render, config, CopyFile(UnitArtifact, UnitTarget));
    SystemStepInDeployment(m, render, config, StartUnit(UnitName));
    SystemStepInDeployment(m, render, config, ProbePath(socket));
  }

  /** The nginx branch: the site copy is attempted only when sites-available
      exists, and the link, its probe and the syntax check happen only after
      a copy that went through. */
  lemma NginxBranches(m: Machine, render: (Template, Config) -> string, config: Config)
    requires "working_directory" in config && "django_project_name" in config
    ensures var r := Deployment(m, render, config);
            var project := config["django_project_name"];
            && (r.outcome.nginx.registration == Skipped <==> !m.sitesAvailableExists)
            && (r.outcome.nginx.registration == Failed <==> m.sitesAvailableExists && m.siteCopyDenied)
            && (CopyFile(SiteArtifact(project), SiteAvailable(project)) in r.effects <==> m.sitesAvailableExists)
            && (Symlink(SiteAvailable(project), SitesEnabled) in r.effects <==> m.sitesAvailableExists && !m.siteCopyDenied)
            && (ProbePath(SiteEnabled(project)) in r.effects <==> m.sitesAvailableExists && !m.siteCopyDenied)
            && (SyntaxCheck in r.effects <==> m.sitesAvailableExists && !m.siteCopyDenied)
            && (r.outcome.nginx.link == Passed <==>
                  m.sitesAvailableExists && !m.siteCopyDenied && m.pathExists(SiteEnabled(project)))
  {
    var project := config["django_project_name"];
    NginxSteps(m, config);
    SystemStepInDeployment(m, render, config, CopyFile(SiteArtifact(project), SiteAvailable(project)));
    SystemStepInDeployment(m, render, config, Symlink(SiteAvailable(project), SitesEnabled));
    SystemStepInDeployment(m, render, config, ProbePath(SiteEnabled(project)));
    SystemStepInDeployment(m, render, config, SyntaxCheck);
  }

  /** A run past both gates is the output directory step followed by the
      deployment of the derived configuration. */
  lemma RunIsDeployment(m: Machine, render: (Template, Config) -> string, cwd: string, g: Config, n: Config)
    requires GunicornGate(g) && NginxGate(n)
    ensures var d := Deployment(m, render, ParseUserInput(cwd, Merge(n, g)));
            && Run(m, render, cwd, g, n).effects == Initialize(m) + d.effects
            && Run(m, render, cwd, g, n).outcome == d.outcome
  {
  }

  /** A request beyond the output directory is in a run exactly when it is
      in the deployment. */
  lemma SystemStepInRun(m: Machine, render: (Template, Config) -> string, cwd: string, g: Config, n: Config, e: Effect)
    requires GunicornGate(g) && NginxGate(n)
    requires IsSystemStep(e)
    ensures e in Run(m, render, cwd, g, n).effects <==> e in Deployment(m, render, ParseUserInput(cwd, Merge(n, g))).effects
  {
    RunIsDeployment(m, render, cwd, g, n);
  }

  /** Registration over a whole run: the socket probed is the derived socket
      path, named after the gunicorn batch's project, and each follow-up
      request is made exactly when its service's copy went through. */
  lemma RunRegistrations(m: Machine, render: (Template, Config) -> string, cwd: string, g: Config, n: Config)
    requires GunicornGate(g) && NginxGate(n)
    ensures var r := Run(m, render, cwd, g, n);
            var c := ParseUserInput(cwd, Merge(n, g));
            var project := g["django_project_name"];
            var socket := c["gunicorn_socket_file_path"];
            && socket == cwd + "/" + project + ".sock"
            && (r.outcome.gunicorn.registration == Registered <==> m.systemdDirExists && !m.unitCopyDenied)
            && (StartUnit(UnitName) in r.effects <==> m.systemdDirExists && !m.unitCopyDenied)
            && (ProbePath(socket) in r.effects <==> m.systemdDirExists && !m.unitCopyDenied)
            && (r.outcome.nginx.registration == Registered <==> m.sitesAvailableExists && !m.siteCopyDenied)
            && (CopyFile(SiteArtifact(project), SiteAvailable(project)) in r.effects <==> m.sitesAvailableExists)
            && (Symlink(SiteAvailable(project), SitesEnabled) in r.effects <==> m.sitesAvailableExists && !m.siteCopyDenied)
            && (ProbePath(SiteEnabled(project)) in r.effects <==> m.sitesAvailableExists && !m.siteCopyDenied)
            && (SyntaxCheck in r.effects <==> m.sitesAvailableExists && !m.siteCopyDenied)
  {
    var c := ParseUserInput(cwd, Merge(n, g));
    var project := g["django_project_name"];
    var socket := c["gunicorn_socket_file_path"];
    PipelineConfig(cwd, n, g);
    GunicornBranches(m, render, c);
    NginxBranches(m, render, c);
    RunIsDeployment(m, render, cwd, g, n);
    SystemStepInRun(m, render, cwd, g, n, StartUnit(UnitName));
    SystemStepInRun(m, render, cwd, g, n, ProbePath(socket));
    SystemStepInRun(m, render, cwd, g, n, CopyFile(SiteArtifact(project), SiteAvailable(project)));
    SystemStepInRun(m, render, cwd, g, n, Symlink(SiteAvailable(project), SitesEnabled));
    SystemStepInRun(m, render, cwd, g, n, ProbePath(SiteEnabled(project)));
    SystemStepInRun(m, render, cwd, g, n, SyntaxCheck);
  }

  /** The reports of a whole run: each follow-up verdict is reported exactly
      when its service was registered, and the firewall verdict reads the
      `ufw` output. */
  lemma RunReports(m: Machine, render: (Template, Config) -> string, cwd: string, g: Config, n: Config)
    requires GunicornGate(g) && NginxGate(n)
    ensures var o := Run(m, render, cwd, g, n).outcome;
            && o.Completed?
            && (o.gunicorn.socket == NotRun <==> !(m.systemdDirExists && !m.unitCopyDenied))
            && (o.nginx.link == NotRun <==> !(m.sitesAvailableExists && !m.siteCopyDenied))
            && (o.nginx.syntax == NotRun <==> !(m.sitesAvailableExists && !m.siteCopyDenied))
            && (o.restartFailed <==> m.nginxFault != NoFault)
            && (o.firewall.inactive <==> StartsWith(m.ufwOutput, "Status: inactive"))
            && !o.firewall.errorShown
  {
    RunIsDeployment(m, render, cwd, g, n);
  }

  /** The two registrations do not depend on each other: changing what the
      systemd side does leaves the nginx requests and result unchanged, and
      the other way round. */
  lemma RegistrationsIndependent(m: Machine, config: Config, systemd: bool, unitDenied: bool, sites: bool, siteDenied: bool)
    requires "working_directory" in config && "django_project_name" in config
    ensures var m' := m.(systemdDirExists := systemd, unitCopyDenied := unitDenied);
            RegisterNginx(m', config) == RegisterNginx(m, config)
    ensures var m' := m.(sitesAvailableExists := sites, siteCopyDenied := siteDenied);
            RegisterGunicorn(m', config) == RegisterGunicorn(m, config)
  {
  }

  /** `nginx -t` never reports a problem: its verdict reads a stderr that is
      merged into stdout, so it passes whenever it runs, whatever nginx prints. */
  lemma SyntaxVerdictIgnoresOutput(m: Machine, render: (Template, Config) -> string, config: Config, output: string)
    requires "working_directory" in config && "django_project_name" in config
    ensures var r := Deployment(m.(nginxTestOutput := output), render, config);
            && (r.outcome.nginx.syntax == Passed <==> m.sitesAvailableExists && !m.siteCopyDenied)
            && (r.outcome.nginx.syntax == NotRun <==> !(m.sitesAvailableExists && !m.siteCopyDenied))
  {
  }

  /** The nginx "restart" starts the unit and then stops it: when the stop
      request is made it follows the start and is the last unit request of
      the run, so without a fault nginx is left stopped; any rejected call,
      the stop included, is reported as a failed restart. */
  lemma RestartStopRequestedLast(m: Machine, render: (Template, Config) -> string, config: Config)
    requires "working_directory" in config && "django_project_name" in config
    ensures var r := Deployment(m, render, config);
            && (r.outcome.restartFailed <==> m.nginxFault != NoFault)
            && (m.nginxFault == NoFault || m.nginxFault == AtStop ==>
                  r.effects[|r.effects| - 3] == StopUnit(NginxUnit)
                  && r.effects[|r.effects| - 4] == StartUnit(NginxUnit))
  {
    var unitSteps := RegisterGunicorn(m, config).0;
    var siteSteps := RegisterNginx(m, config).0;
    var restartSteps := RestartNginx(m.nginxFault).0;
    var system := SystemSteps(m, config);
    assert system == unitSteps + siteSteps + restartSteps + [FirewallStatus];
    assert Deployment(m, render, config).effects
        == Artifacts(render, config) + system + [WriteFile(ReadmeFile, ReadmeText)];
  }

  /** The nginx artifact is named after the project, so a project called
      "gunicorn.service" or "README.txt" names the same local file as the
      unit artifact or the README. */
  lemma ArtifactNameCollisions(project: string)
    ensures SiteArtifact(project) == UnitArtifact <==> project == "gunicorn.service"
    ensures SiteArtifact(project) == ReadmeFile <==> project == "README.txt"
  {
    var prefix := "deploy_it/";
    assert SiteArtifact(project) == prefix + project;
    assert UnitArtifact == prefix + "gunicorn.service";
    assert ReadmeFile == prefix + "README.txt";
    if SiteArtifact(project) == UnitArtifact {
      assert project == SiteArtifact(project)[|prefix|..];
    }
    if SiteArtifact(project) == ReadmeFile {
      assert project == SiteArtifact(project)[|prefix|..];
    }
  }
}

=== FILE: text.dfy ===
/**
 The string primitives the deployment script leans on, with Python's meaning:
 `str.strip()`, `str.split(sep)`, `sep.join(parts)`, `str.startswith` and the
 character substitution that turns a dotted module path into a file path.
 */
module Text {

  /** The characters Python's `str.isspace()` accepts, which are exactly the
      characters `str.strip()` with no argument removes. */
  predicate IsSpace(c: char) {
    var n := c as int;
    || (0x09 <= n <= 0x0d)
    || (0x1c <= n <= 0x20)
    || n == 0x85 || n == 0xa0 || n == 0x1680
    || (0x2000 <= n <= 0x200a)
    || n == 0x2028 || n == 0x2029 || n == 0x202f || n == 0x205f || n == 0x3000
  }

  predicate AllSpace(s: string) {
    forall i :: 0 <= i < |s| ==> IsSpace(s[i])
  }

  /** Number of whitespace characters at the front of `s`. */
  function LeadingSpaces(s: string): (n: nat)
    ensures n <= |s|
    ensures AllSpace(s[..n])
    ensures n == |s| || !IsSpace(s[n])
  {
    if |s| > 0 && IsSpace(s[0]) then 1 + LeadingSpaces(s[1..]) else 0
  }

  /** Number of whitespace characters at the back of `s`. */
  function TrailingSpaces(s: string): (n: nat)
    ensures n <= |s|
    ensures AllSpace(s[|s| - n..])
    ensures n == |s| || !IsSpace(s[|s| - n - 1])
  {
    if |s| > 0 && IsSpace(s[|s| - 1]) then 1 + TrailingSpaces(s[..|s| - 1]) else 0
  }

  /** Python's `s.strip()`: the longest infix of `s` that neither starts nor
      ends with whitespace, once every surrounding whitespace is removed. */
  function Strip(s: string): (r: string)
    ensures |r| <= |s|
    ensures r == [] <==> AllSpace(s)
    ensures r != [] ==> !IsSpace(r[0]) && !IsSpace(r[|r| - 1])
    ensures exists lo :: 0 <= lo <= |s| - |r| && StrippedAt(s, r, lo)
  {
    var lo := LeadingSpaces(s);
    var hi := |s[lo..]| - TrailingSpaces(s[lo..]);
    StripAround(s, lo, hi);
    StripBlank(s, lo, hi);
    StripEnds(s, lo, hi);
    s[lo..lo + hi]
  }

  /** The infix between the leading and the trailing whitespace has only
      whitespace around it. */
  lemma StripAround(s: string, lo: nat, hi: nat)
    requires lo == LeadingSpaces(s) && hi == |s[lo..]| - TrailingSpaces(s[lo..])
    ensures lo + hi <= |s|
    ensures StrippedAt(s, s[lo..lo + hi], lo)
  {
    StripTail(s, lo, hi);
    assert |s[lo..lo + hi]| == hi;
  }

  /** Only whitespace follows the infix. */
  lemma StripTail(s: string, lo: nat, hi: nat)
    requires lo == LeadingSpaces(s) && hi == |s[lo..]| - TrailingSpaces(s[lo..])
    ensures lo + hi <= |s| && AllSpace(s[lo + hi..])
  {
    var rest := s[lo..];
    assert rest[|rest| - TrailingSpaces(rest)..] == s[lo + hi..];
  }

  /** The infix is empty exactly when all of `s` is whitespace. */
  lemma StripBlank(s: string, lo: nat, hi: nat)
    requires lo == LeadingSpaces(s) && hi == |s[lo..]| - TrailingSpaces(s[lo..])
    ensures hi == 0 <==> AllSpace(s)
  {
    var rest := s[lo..];
    if hi == 0 {
      assert AllSpace(rest[0..]);
      assert lo == |s|;
      assert s[..lo] == s;
    }
  }

  /** A non-empty infix starts and ends with a non-whitespace character. */
  lemma StripEnds(s: string, lo: nat, hi: nat)
    requires lo == LeadingSpaces(s) && hi == |s[lo..]| - TrailingSpaces(s[lo..])
    ensures hi > 0 ==> lo + hi <= |s| && !IsSpace(s[lo]) && !IsSpace(s[lo + hi - 1])
  {
    var rest := s[lo..];
    if hi > 0 {
      assert |rest| - TrailingSpaces(rest) - 1 == hi - 1;
      assert !IsSpace(rest[hi - 1]);
      assert rest[hi - 1] == s[lo + hi - 1];
    }
  }

  /** `r` sits in `s` at offset `lo` with only whitespace around it. */
  predicate StrippedAt(s: string, r: string, lo: nat)
    requires lo + |r| <= |s|
  {
    && s[lo..lo + |r|] == r
    && AllSpace(s[..lo])
    && AllSpace(s[lo + |r|..])
  }

  /** Python's `s.startswith(prefix)`. */
  predicate StartsWith(s: string, prefix: string) {
    |prefix| <= |s| && s[..|prefix|] == prefix
  }

  function Count(s: string, c: char): (n: nat)
    ensures n <= |s|
  {
    if s == [] then 0 else (if s[0] == c then 1 else 0) + Count(s[1..], c)
  }

  /** Python's `s.split(sep)` for a one-character separator: never empty,
      and an empty string yields one empty part. */
  function Split(s: string, sep: char): (parts: seq<string>)
    ensures |parts| == Count(s, sep) + 1
    ensures forall i :: 0 <= i < |parts| ==> sep !in parts[i]
  {
    if s == [] then [[]]
    else
      var tail := Split(s[1..], sep);
      if s[0] == sep then [[]] + tail
      else [[s[0]] + tail[0]] + tail[1..]
  }

  /** Python's `sep.join(parts)` for a one-character separator. */
  function Join(parts: seq<string>, sep: char): string {
    if parts == [] then []
    else if |parts| == 1 then parts[0]
    else parts[0] + [sep] + Join(parts[1..], sep)
  }

  /** Every occurrence of `from` in `s` replaced by `to`. */
  function Replace(s: string, from: char, to: char): (r: string)
    ensures |r| == |s|
    ensures forall i :: 0 <= i < |s| ==> r[i] == if s[i] == from then to else s[i]
  {
    if s == [] then [] else [if s[0] == from then to else s[0]] + Replace(s[1..], from, to)
  }

  /** A string without the separator splits into itself alone. */
  lemma {:induction false} SplitWithoutSeparator(s: string, sep: char)
    requires sep !in s
    ensures Split(s, sep) == [s]
  {
    if s != [] {
      SplitWithoutSeparator(s[1..], sep);
      assert [s[0]] + s[1..] == s;
    }
  }

  /** Splitting at one occurrence of the separator splits each side apart. */
  lemma {:induction false} SplitAcross(a: string, sep: char, b: string)
    ensures Split(a + [sep] + b, sep) == Split(a, sep) + Split(b, sep)
  {
    if a != [] {
      SplitAcross(a[1..], sep, b);
      assert (a + [sep] + b)[1..] == a[1..] + [sep] + b;
    }
  }

  /** Splitting a join of separator-free parts gives the parts back. */
  lemma {:induction false} SplitJoin(parts: seq<string>, sep: char)
    requires parts != []
    requires forall i :: 0 <= i < |parts| ==> sep !in parts[i]
    ensures Split(Join(parts, sep), sep) == parts
  {
    if |parts| == 1 {
      SplitWithoutSeparator(parts[0], sep);
    } else {
      SplitWithoutSeparator(parts[0], sep);
      SplitJoin(parts[1..], sep);
      SplitAcross(parts[0], sep, Join(parts[1..], sep));
    }
  }

  /** A string that ends with the separator splits into a last part that
      is empty. */
  lemma {:induction false} SplitTrailingSeparator(s: string, sep: char)
    requires s != [] && s[|s| - 1] == sep
    ensures |Split(s, sep)| >= 2 && Split(s, sep)[|Split(s, sep)| - 1] == []
  {
    if |s| > 1 {
      SplitTrailingSeparator(s[1..], sep);
    }
  }

  /** Splitting and re-joining on the same separator gives the input back. */
  lemma {:induction false} JoinSplit(s: string, sep: char)
    ensures Join(Split(s, sep), sep) == s
  {
    if s != [] {
      JoinSplit(s[1..], sep);
      var tail := Split(s[1..], sep);
      if s[0] != sep {
        if |tail| > 1 {
          assert Join(tail, sep) == tail[0] + [sep] + Join(tail[1..], sep);
        }
      }
    }
  }

  /** Splitting on one character and joining with another is substitution. */
  lemma {:induction false} JoinSplitReplace(s: string, from: char, to: char)
    ensures Join(Split(s, from), to) == Replace(s, from, to)
  {
    if s != [] {
      JoinSplitReplace(s[1..], from, to);
      var tail := Split(s[1..], from);
      if s[0] != from {
        if |tail| > 1 {
          assert Join(tail, to) == tail[0] + [to] + Join(tail[1..], to);
        }
      }
    }
  }

  /** Extending the last part extends the joined string by the same text. */
  lemma {:induction false} JoinExtendLast(parts: seq<string>, sep: char, ext: string)
    requires parts != []
    ensures Join(parts[..|parts| - 1] + [parts[|parts| - 1] + ext], sep) == Join(parts, sep) + ext
  {
    if |parts| > 1 {
      var p' := parts[..|parts| - 1] + [parts[|parts| - 1] + ext];
      JoinExtendLast(parts[1..], sep, ext);
      assert p'[1..] == parts[1..][..|parts[1..]| - 1] + [parts[1..][|parts[1..]| - 1] + ext];
    }
  }

  /** Stripping is idempotent. */
  lemma StripIdempotent(s: string)
    ensures Strip(Strip(s)) == Strip(s)
  {
    var r := Strip(s);
    if r != [] {
      assert LeadingSpaces(r) == 0;
      assert TrailingSpaces(r) == 0;
    }
  }
}

=== FILE: validators.dfy ===
/**
 The answer validators and filters of the two question batches
 (`gunicorn_config` and `nginx_config` in deploy_it/main.py). A validator
 either accepts a raw answer or returns the rejection message the prompt shows
 before asking again; a filter turns an accepted answer into the value stored
 under the question's name.
 */
module Validators {
  import opened Text
  import opened Paths

  /** A validator's answer: Python's `True`, or the message string. */
  datatype Verdict = Accept | Reject(message: string)

  /** What the validators observe of the machine, as oracles: `Path.exists`
      and `Path.resolve` on the printed form of a path, and whether
      `pwd.getpwnam` finds an account. */
  datatype Host = Host(
    pathExists: string -> bool,
    resolve: string -> string,
    hasAccount: string -> bool)

  const DjangoProjectNameBlank := "Django project name cannot be blank."
  const UserNotFound := "Specified user was not found. Please enter the correct username."
  const WsgiAppNameBlank := "WSGI application cannot be blank."
  const ServerIpAddressBlank := "IP address cannot be blank"
  const StaticEndpointBlank := "static endpoint cannot be blank"

  /** Accepts exactly the non-empty answers; whitespace counts as content. */
  function RequireText(answer: string, message: string): (v: Verdict)
    ensures v.Accept? <==> |answer| > 0
    ensures v.Reject? ==> v.message == message
  {
    if |answer| > 0 then Accept else Reject(message)
  }

  function ValidateDjangoProjectName(answer: string): (v: Verdict)
    ensures v.Accept? <==> answer != []
    ensures v.Reject? ==> v.message == DjangoProjectNameBlank
  {
    RequireText(answer, DjangoProjectNameBlank)
  }

  /** The account name is looked up after stripping whitespace. */
  function ValidateUsername(host: Host, answer: string): (v: Verdict)
    ensures v.Accept? <==> host.hasAccount(Strip(answer))
    ensures v.Reject? ==> v.message == UserNotFound
  {
    if host.hasAccount(Strip(answer)) then Accept else Reject(UserNotFound)
  }

  /** `Path(raw) / "bin" / "activate"`: "bin/activate" below the printed
      answer, with one separator in between unless the printed answer is
      "." or already ends in one. */
  function ActivateScript(raw: string): (p: string)
    ensures PurePath(raw) == "." ==> p == "bin/activate"
    ensures PurePath(raw) != "." ==>
              p == PurePath(raw) + (if PurePath(raw)[|PurePath(raw)| - 1] == '/' then "" else "/") + "bin/activate"
  {
    var dir := PurePath(raw);
    ActivateBelow(dir);
    Child(Child(dir, "bin"), "activate")
  }

  /** Two `/` steps, "bin" and then "activate", below a printed path. */
  lemma ActivateBelow(dir: string)
    requires dir != []
    ensures dir == "." ==> Child(Child(dir, "bin"), "activate") == "bin/activate"
    ensures dir != "." ==>
              Child(Child(dir, "bin"), "activate")
              == dir + (if dir[|dir| - 1] == '/' then "" else "/") + "bin/activate"
  {
    if dir == "." {
      assert Child(dir, "bin") == "bin";
    } else if dir[|dir| - 1] == '/' {
      ActivateBelowSeparator(dir);
    } else {
      ActivateBelowName(dir);
    }
  }

  lemma ActivateBelowSeparator(dir: string)
    requires dir != [] && dir != "." && dir[|dir| - 1] == '/'
    ensures Child(Child(dir, "bin"), "activate") == dir + "bin/activate"
  {
    assert Child(dir, "bin") == dir + "bin";
    ChildOfName(dir + "bin", "activate");
    BinThenActivate(dir);
  }

  lemma ActivateBelowName(dir: string)
    requires dir != [] && dir != "." && dir[|dir| - 1] != '/'
    ensures Child(Child(dir, "bin"), "activate") == (dir + "/") + "bin/activate"
  {
    assert Child(dir, "bin") == (dir + "/") + "bin";
    ChildOfName((dir + "/") + "bin", "activate");
    BinThenActivate(dir + "/");
  }

  /** Below a path that ends in "bin", a component follows one separator. */
  lemma ChildOfName(p: string, name: string)
    requires |p| >= 3 && p[|p| - 3..] == "bin"
    ensures Child(p, name) == p + "/" + name
  {
    assert p[|p| - 1] == "bin"[2];
  }

  lemma BinThenActivate(d: string)
    ensures ((d + "bin") + "/") + "activate" == d + "bin/activate"
  {
    assert "bin" + "/" + "activate" == "bin/activate";
  }

  function ValidateVenvPath(host: Host, raw: string): (v: Verdict)
    ensures v.Accept? <==> host.pathExists(ActivateScript(raw))
    ensures v.Reject? ==> v.message == "Unable to find a virtual env at " + ActivateScript(raw)
                                       + ". Please check the path (Only virtualenv env's supported)"
  {
    var path := ActivateScript(raw);
    if host.pathExists(path) then Accept
    else Reject("Unable to find a virtual env at " + path + ". Please check the path (Only virtualenv env's supported)")
  }

  /** The stored virtual environment path is the resolved form of the answer. */
  function FilterVenvPath(host: Host, raw: string): string
  {
    host.resolve(PurePath(raw))
  }

  /** The WSGI module's file: the dotted path split on ".", ".py" added to
      the last part, and the parts joined with "/". */
  function WsgiFile(dotted: string): (file: string)
    ensures file == Replace(dotted, '.', '/') + ".py"
  {
    var parts := Split(dotted, '.');
    JoinExtendLast(parts, '/', ".py");
    JoinSplitReplace(dotted, '.', '/');
    Join(parts[..|parts| - 1] + [parts[|parts| - 1] + ".py"], '/')
  }

  function ValidateWsgiPath(host: Host, raw: string): (v: Verdict)
    ensures v.Accept? <==> host.pathExists(PurePath(Replace(raw, '.', '/') + ".py"))
    ensures v.Reject? ==> v.message == "Unable to find wsgi file at " + PurePath(Replace(raw, '.', '/') + ".py")
  {
    var path := PurePath(WsgiFile(raw));
    if host.pathExists(path) then Accept else Reject("Unable to find wsgi file at " + path)
  }

  function ValidateWsgiAppName(answer: string): (v: Verdict)
    ensures v.Accept? <==> answer != []
    ensures v.Reject? ==> v.message == WsgiAppNameBlank
  {
    RequireText(answer, WsgiAppNameBlank)
  }

  /** The optional environment file: a blank answer (after stripping) is
      always accepted, any other answer only when the file exists. */
  function ValidateProjectEnvFile(host: Host, answer: string): (v: Verdict)
    ensures AllSpace(answer) ==> v.Accept?
    ensures !AllSpace(answer) ==> (v.Accept? <==> host.pathExists(PurePath(Strip(answer))))
    ensures v.Reject? ==> v.message == "Environment file not found at " + Strip(answer)
  {
    var path := Strip(answer);
    if |path| > 0 then
      if host.pathExists(PurePath(path)) then Accept
      else Reject("Environment file not found at " + path)
    else Accept
  }

  /** A blank answer is stored as the empty string, any other answer as the
      resolved form of its stripped text. */
  function FilterProjectEnvFile(host: Host, answer: string): (stored: string)
    ensures AllSpace(answer) ==> stored == []
    ensures !AllSpace(answer) ==> stored == host.resolve(PurePath(Strip(answer)))
  {
    var path := Strip(answer);
    if path != [] then host.resolve(PurePath(path)) else path
  }

  function ValidateServerIpAddress(answer: string): (v: Verdict)
    ensures v.Accept? <==> answer != []
    ensures v.Reject? ==> v.message == ServerIpAddressBlank
  {
    RequireText(answer, ServerIpAddressBlank)
  }

  function ValidateStaticEndpoint(answer: string): (v: Verdict)
    ensures v.Accept? <==> answer != []
    ensures v.Reject? ==> v.message == StaticEndpointBlank
  {
    RequireText(answer, StaticEndpointBlank)
  }

  function ValidateStaticfileFolder(host: Host, raw: string): (v: Verdict)
    ensures v.Accept? <==> host.pathExists(PurePath(raw))
    ensures v.Reject? ==> v.message == "staticfile folder not found at " + PurePath(raw)
  {
    var path := PurePath(raw);
    if host.pathExists(path) then Accept else Reject("staticfile folder not found at " + path)
  }

  function FilterStaticfileFolder(host: Host, raw: string): string
  {
    host.resolve(PurePath(raw))
  }

  /** The nine questions, in the order they are asked. */
  datatype Question =
    | DjangoProjectName | Username | VenvPath | WsgiPath | WsgiAppName | ProjectEnvFile
    | ServerIpAddress | StaticEndpoint | StaticfileFolder

  const GunicornQuestions: seq<Question> :=
    [DjangoProjectName, Username, VenvPath, WsgiPath, WsgiAppName, ProjectEnvFile]

  const NginxQuestions: seq<Question> :=
    [ServerIpAddress, StaticEndpoint, StaticfileFolder]

  /** The key an answer is stored under. */
  function Name(q: Question): string {
    match q
    case DjangoProjectName => "django_project_name"
    case Username => "username"
    case VenvPath => "venv_path"
    case WsgiPath => "wsgi_path"
    case WsgiAppName => "wsgi_app_name"
    case ProjectEnvFile => "project_env_file"
    case ServerIpAddress => "server_ip_address"
    case StaticEndpoint => "static_endpoint"
    case StaticfileFolder => "staticfile_folder"
  }

  /** The validator attached to each question, stated rule by rule. */
  function Validate(host: Host, q: Question, raw: string): (v: Verdict)
    ensures q in {DjangoProjectName, WsgiAppName, ServerIpAddress, StaticEndpoint} ==> (v.Accept? <==> raw != [])
    ensures q == Username ==> (v.Accept? <==> host.hasAccount(Strip(raw)))
    ensures q == VenvPath ==> (v.Accept? <==> host.pathExists(ActivateScript(raw)))
    ensures q == WsgiPath ==> (v.Accept? <==> host.pathExists(PurePath(Replace(raw, '.', '/') + ".py")))
    ensures q == ProjectEnvFile ==> (v.Accept? <==> AllSpace(raw) || host.pathExists(PurePath(Strip(raw))))
    ensures q == StaticfileFolder ==> (v.Accept? <==> host.pathExists(PurePath(raw)))
  {
    match q
    case DjangoProjectName => ValidateDjangoProjectName(raw)
    case Username => ValidateUsername(host, raw)
    case VenvPath => ValidateVenvPath(host, raw)
    case WsgiPath => ValidateWsgiPath(host, raw)
    case WsgiAppName => ValidateWsgiAppName(raw)
    case ProjectEnvFile => ValidateProjectEnvFile(host, raw)
    case ServerIpAddress => ValidateServerIpAddress(raw)
    case StaticEndpoint => ValidateStaticEndpoint(raw)
    case StaticfileFolder => ValidateStaticfileFolder(host, raw)
  }

  /** The stored value of an accepted answer; questions without a filter
      store the raw answer, so a username keeps its surrounding whitespace. */
  function Filter(host: Host, q: Question, raw: string): (stored: string)
    ensures q in {VenvPath, StaticfileFolder} ==> stored == host.resolve(PurePath(raw))
    ensures q == ProjectEnvFile ==> stored == if AllSpace(raw) then [] else host.resolve(PurePath(Strip(raw)))
    ensures q !in {VenvPath, ProjectEnvFile, StaticfileFolder} ==> stored == raw
  {
    match q
    case VenvPath => FilterVenvPath(host, raw)
    case ProjectEnvFile => FilterProjectEnvFile(host, raw)
    case StaticfileFolder => FilterStaticfileFolder(host, raw)
    case _ => raw
  }

  /** No two questions share a key, so no answer overwrites another. */
  lemma NamesDistinct(a: Question, b: Question)
    ensures Name(a) == Name(b) <==> a == b
  {
    if a != b {
      assert |Name(a)| != |Name(b)| || Name(a)[1] != Name(b)[1];
    }
  }

  /** `stored` is what the prompt keeps for question `q` after the operator
      typed `raw`. */
  predicate Answered(host: Host, q: Question, raw: string, stored: string) {
    Validate(host, q, raw).Accept? && stored == Filter(host, q, raw)
  }

  /** The four required-text questions accept exactly the non-empty answers
      and store them verbatim: no stripping, so whitespace alone is an answer. */
  lemma RequiredTextAnswers(host: Host, q: Question, raw: string)
    requires q in {DjangoProjectName, WsgiAppName, ServerIpAddress, StaticEndpoint}
    ensures Answered(host, q, raw, raw) <==> raw != []
    ensures forall stored :: Answered(host, q, raw, stored) ==> stored == raw
  {
  }

  /** An accepted username names an account once stripped, yet is stored as typed. */
  lemma UsernameStoredUnstripped(host: Host, raw: string, stored: string)
    requires Answered(host, Username, raw, stored)
    ensures stored == raw
    ensures host.hasAccount(Strip(stored))
  {
  }

  /** The dotted-path rule: the answer is accepted exactly when the file
      named by the dots-to-slashes form plus ".py" exists. */
  lemma WsgiPathRule(host: Host, raw: string)
    ensures Validate(host, WsgiPath, raw).Accept? <==> host.pathExists(PurePath(Replace(raw, '.', '/') + ".py"))
    ensures Filter(host, WsgiPath, raw) == raw
  {
  }

  /** `config.wsgi` names the file `config/wsgi.py`. */
  lemma WsgiFileExample(dotted: string)
    requires dotted == "config.wsgi"
    ensures WsgiFile(dotted) == "config/wsgi.py"
  {
    var r := Replace(dotted, '.', '/');
    assert |r| == 11;
    assert forall i :: 0 <= i < 11 ==> r[i] == "config/wsgi"[i];
  }

  /** The environment-file question: blank answers are accepted and stored
      as the empty string; other answers are accepted iff the stripped path
      exists and are stored resolved. */
  lemma ProjectEnvFileRule(host: Host, raw: string)
    ensures AllSpace(raw) ==> Answered(host, ProjectEnvFile, raw, [])
    ensures !AllSpace(raw) ==>
              (Validate(host, ProjectEnvFile, raw).Accept? <==> host.pathExists(PurePath(Strip(raw))))
    ensures forall stored :: Answered(host, ProjectEnvFile, raw, stored) && stored != [] ==>
              !AllSpace(raw) && stored == host.resolve(PurePath(Strip(raw)))
  {
  }

  /** Surrounding whitespace never changes the environment-file answer. */
  lemma ProjectEnvFileIgnoresPadding(host: Host, raw: string)
    ensures Validate(host, ProjectEnvFile, Strip(raw)) == Validate(host, ProjectEnvFile, raw)
    ensures Filter(host, ProjectEnvFile, Strip(raw)) == Filter(host, ProjectEnvFile, raw)
  {
    StripIdempotent(raw);
  }

  /** The virtual environment question: accepted exactly when `bin/activate`
      exists under the answer, and stored resolved. */
  lemma VenvPathRule(host: Host, raw: string, stored: string)
    ensures Answered(host, VenvPath, raw, stored) <==>
              host.pathExists(ActivateScript(raw)) && stored == host.resolve(PurePath(raw))
  {
  }

  /** An answer that prints as a directory other than "." with no trailing
      separator has its script at that directory plus "/bin/activate". */
  lemma ActivateScriptOf(raw: string, dir: string)
    requires PurePath(raw) == dir && dir != "." && dir[|dir| - 1] != '/'
    ensures ActivateScript(raw) == dir + "/bin/activate"
  {
    var p := ActivateScript(raw);
    assert p == (dir + "/") + "bin/activate";
    SeparatorThenScript(dir);
  }

  lemma SeparatorThenScript(dir: string)
    ensures (dir + "/") + "bin/activate" == dir + "/bin/activate"
  {
    assert "/" + "bin/activate" == "/bin/activate";
  }

  /** For a relative answer without empty or "." components, such as
      `venv`, the script probed is the answer followed by "/bin/activate". */
  lemma ActivateScriptRelative(t: string)
    requires CleanRelative(t)
    ensures ActivateScript(t) == t + "/bin/activate"
  {
    PurePathCleanRelative(t);
    CleanRelativeShape(t);
    ActivateScriptOf(t, t);
  }

  /** For an absolute answer without empty or "." components, the script
      probed is the answer followed by "/bin/activate". */
  lemma ActivateScriptAbsolute(t: string)
    requires CleanRelative(t)
    ensures ActivateScript("/" + t) == "/" + t + "/bin/activate"
  {
    PurePathCleanAbsolute(t);
    CleanRelativeShape(t);
    var dir := "/" + t;
    assert dir[|dir| - 1] == t[|t| - 1];
    assert dir != "." by { assert dir[0] == '/'; }
    ActivateScriptOf(dir, dir);
  }

  /** The static files question: accepted exactly when the folder exists,
      and stored resolved. */
  lemma StaticfileFolderRule(host: Host, raw: string, stored: string)
    ensures Answered(host, StaticfileFolder, raw, stored) <==>
              host.pathExists(PurePath(raw)) && stored == host.resolve(PurePath(raw))
  {
  }
}
